=== FILE: README.md ===
# Process-introspection tool: memory listing and reading, in Dafny

The tool inspects a local process by pid. This model covers the two operations that hold real logic: the listing of executable memory regions (`show_executable_memory`) and the raw memory reader (`read_memory`, `read_memory_linux`, `read_memory_mac`). Both are written in `enums.py`.

Every `print` of the tool is modelled as one element of a returned `seq<string>`, in printing order; `print()` becomes `""`. The operating system is never called. Whatever the tool gets from it is an input:

- the lines of `/proc/<pid>/maps`;
- the result of running `vmmap` (exit code, stdout, stderr);
- the opened `/proc/<pid>/mem` stream, as a function from (offset, size) to what seeking and reading returns.

Each of these may also come back as `Io.NotFound` (a `FileNotFoundError`) or `Io.Raised(message)` (any other exception, printed as `Error: <message>`).

Modules:

- `Outcomes` (outcomes.dfy): `Option`, `Io`, and `ErrorLine`, the `Error: <message>` line both operations print for an exception other than `FileNotFoundError`.
- `PyText` (pytext.dfy): the Python string operations the tool relies on. These are `strip()`, `in`, `startswith`, `splitlines()`, `" ".join`, `str(int)` and `hex(int)`, plus `split(" ")`, which the tool never calls and the model uses only to read printed rows back. Each has a contract. The `in` test also has a lemma tying it to the offsets where the pattern occurs, and `splitlines()`, `split(" ")`, `str(int)` and `hex(int)` have round-trip lemmas.
- `HexDump` (hexdump.dfy): the 16-bytes-per-row hex rendering of the reader. It comes with a decoder and the row-count, row-size, layout and round-trip lemmas.
- `LineFilter` (linefilter.dfy): the order-preserving "keep matching lines, stripped" filter that both region listings use. Its lemma says exactly which lines it keeps.
- `Platform` (platform.dfy): the two platform probes as closed datatypes.
  - The region listing looks at `os.name` and `sys.platform`.
  - The reader looks at `platform.system()`.
- `ExecMemory` (execmemory.dfy): `show_executable_memory`. The maps and vmmap filter loops are methods with loop invariants; the vmmap loop carries the `found_executable` flag.
- `MemoryRead` (memoryread.dfy): `read_memory_linux` and the `read_memory` dispatch. `read_memory_mac` ignores its arguments and prints two fixed lines; it is the constant `MemoryRead.RestrictedNotice`.

Behaviours of the code worth knowing, all of which the model keeps:

- On a system that is neither POSIX nor `darwin`, the region listing prints only its banner. It reports no "unsupported" outcome.
- `start > end` is not rejected. The raw, negative size is handed to the stream, so nothing fails fast.
- A short read is not reported as a failure. Whatever bytes the stream returns are dumped.
- The maps test looks for `r-x` anywhere in the line, including the path (`ExecMemory.CoarseMapsPolicy`). A read-only mapping is listed when its path mentions `r-x`. An `rwxp` or `--xp` mapping is listed only when another part of the line, such as the path, contains `r-x`; its permission field alone never matches.
- On a POSIX host other than Linux or macOS the two probes disagree (`Platform.OtherPosixHostsDiverge`). The listing reads `/proc/<pid>/maps`, while the reader refuses the system.

The fixed messages are the functions and constants `ExecMemory.Banner` (enums.py:54), `MapsMissing` (:65), `NoRegions` (:81), `VmmapFailed` (:83), `VmmapMissing` (:85), and `MemoryRead.ReadingBanner` (:93), `MemoryHeading` (:107), `NoMemFile` (:112), `RestrictedNotice` (:118-119) and `UnsupportedMessage` (:130). `Outcomes.ErrorLine` is the `Error: {e}` line at enums.py:67, :87 and :114, shared by both operations. Each spells out the text printed at that line, with `str()` and `hex()` applied as Python does where the line is an f-string.

## Model

| member | source | states |
|---|---|---|
| `PyText.Strip` | enums.py:63 | The result is the infix of the line starting after its leading whitespace, with only whitespace on either side. It neither starts nor ends with whitespace. |
| `PyText.Contains` | enums.py:62 | The empty pattern is in every string. A pattern that is found is no longer than the string. |
| `PyText.ContainsAt` | enums.py:62 | The `in` test holds exactly when the pattern occurs at some offset of the line. |
| `PyText.StartsWith` | enums.py:56 | `startswith` holds exactly when the prefix occurs at offset 0, and then the prefix is also `in` the string. |
| `PyText.SplitLines` | enums.py:76 | No line `splitlines()` produces holds a line boundary. There are never more lines than characters, and a non-empty text has at least one line. |
| `PyText.SplitLinesUnlines` | enums.py:76 | `splitlines()` gives back exactly the lines of a text made of boundary-free lines, each ended by `\n`. |
| `PyText.UnlinesSplitLines` | enums.py:76 | For any text whose only line boundary is `\n`, the lines `splitlines()` returns, each followed by `\n`, rebuild the text. A `\n` is added only when the last line was unterminated. |
| `PyText.JoinSpace` | enums.py:109 | `" ".join` starts with the first part, and a space follows it when there is a second part. |
| `PyText.SplitJoinSpace` | enums.py:109 | `split(" ")` undoes `" ".join` on one or more space-free parts. |
| `PyText.Digits` | enums.py:93 | The digits of a number are lower-case hex digits, at least one, and the first is `0` only for zero. Zero is the single digit `0`, as `str(0)` and `hex(0)` print it. |
| `PyText.DigitsRoundTrip` | enums.py:93 | The digits `hex()` and `str()` print for a number read back as that number. |
| `PyText.IntStr` | enums.py:54 | `str(n)` is non-empty and starts with `-` exactly when n is negative. |
| `PyText.IntStrDigits` | enums.py:54 | After the sign, `str(n)` is decimal digits without leading zeros that read back as the magnitude of n. For zero the digits are exactly `0`. |
| `PyText.HexStr` | enums.py:93 | `hex(n)` starts with `-0x` when n is negative and with `0x` otherwise. |
| `PyText.HexStrDigits` | enums.py:93 | After the prefix, `hex(n)` is lower-case hex digits without leading zeros that read back as the magnitude of n. For zero the digits are exactly `0`, so `hex(0)` is `0x0`. |
| `HexDump.ByteHex` | enums.py:109 | `{byte:02x}` is exactly two lower-case hex digits whose value, high digit first, is the byte. |
| `HexDump.ByteHexRoundTrip` | enums.py:109 | Parsing a rendered byte gives the byte back. |
| `HexDump.Hexes` | enums.py:109 | The generator yields one token per byte, in order, and token k is `{byte:02x}` of byte k. |
| `HexDump.RenderRow` | enums.py:109 | A row of k >= 1 bytes prints as 3k-1 characters, and an empty row prints as nothing. |
| `HexDump.RowLayout` | enums.py:109 | In a printed row, a position holds a space exactly when it is 2 mod 3, and byte i sits at positions 3i and 3i+1. |
| `HexDump.RowRoundTrip` | enums.py:109 | Splitting a printed row on spaces and parsing each two-digit token yields the row's bytes. |
| `HexDump.Rows` | enums.py:108 | Each slice the row loop takes holds 1 to 16 bytes. |
| `HexDump.RowCount` | enums.py:108 | An n-byte buffer gives ceil(n/16) rows, so none for an empty buffer. |
| `HexDump.RowSizes` | enums.py:108-109 | Every row but the last holds exactly 16 bytes. |
| `HexDump.RowsFlatten` | enums.py:108-109 | Concatenating the rows in order gives back the buffer. |
| `HexDump.RowAt` | enums.py:108-109 | Row k is the slice `memory[16k:16k+16]`, clamped at the end of the buffer. |
| `HexDump.DumpRoundTrip` | enums.py:108-109 | Decoding all printed rows gives back exactly the bytes that were read. |
| `HexDump.DumpLines` | enums.py:108-109 | The loop prints the least number of lines that hold all the bytes at 16 per line: with n bytes and L lines, n <= 16L < n + 16. |
| `HexDump.HexDumpLines` | enums.py:108-109 | The row loop prints, in order, the rendering of each 16-byte slice, and nothing else. |
| `LineFilter.Selected` | enums.py:60-63 | A filter loop prints at most one line per input line. |
| `LineFilter.SelectedExactly` | enums.py:60-63 | The output is the matching lines, stripped, in input order. The k-th output is the k-th match, and a line is listed if and only if it matches. |
| `LineFilter.NoneSelected` | enums.py:79-81 | Nothing is printed by the filter if and only if no line matches. |
| `Platform.ExecStrategyOf` | enums.py:56-69 | The listing takes the vmmap branch for any `darwin*` platform. It takes the maps branch for any other POSIX system, and neither branch otherwise. |
| `Platform.ReadStrategyOf` | enums.py:122-130 | Exactly one reader branch per system name: Darwin is restricted, Linux reads, and every other name is unsupported. |
| `Platform.TargetHostsAgree` | enums.py:123-128 | On Linux both probes pick the /proc path. On macOS both pick the macOS path. |
| `Platform.OtherPosixHostsDiverge` | enums.py:56 | On FreeBSD the listing reads `/proc/<pid>/maps`, while the reader reports the system as unsupported. |
| `ExecMemory.IsMapsExecLine` | enums.py:62 | A maps line is listed exactly when `r-x` occurs at some offset of it. |
| `ExecMemory.IsVmmapExecLine` | enums.py:77 | A vmmap line is listed exactly when `EXEC` or `__TEXT` occurs at some offset of it. |
| `ExecMemory.AnyVmmapExecLine` | enums.py:75-80 | The final value of `found_executable` is true exactly when the loop printed at least one line. |
| `ExecMemory.MapsOutput` | enums.py:58-67 | A maps table that cannot be opened gives one message. Otherwise at most one line is printed per line of the table. |
| `ExecMemory.VmmapListing` | enums.py:73-81 | With exit code 0, at least one line is printed, and at most one per report line plus the none-found message. |
| `ExecMemory.VmmapOutput` | enums.py:71-87 | The macOS branch always prints something, and exactly one line unless vmmap ran with exit code 0. |
| `ExecMemory.ExecReport` | enums.py:53-87 | The banner comes first. Something always follows it on a `darwin` platform, and nothing does on a host that neither branch accepts. |
| `ExecMemory.FilterMaps` | enums.py:60-63 | The maps loop prints the `r-x` lines, stripped, in file order. |
| `ExecMemory.FilterVmmap` | enums.py:75-81 | The vmmap loop prints the `EXEC`/`__TEXT` lines of `splitlines()`, stripped, in order. It then prints the none-found message exactly when no line matched. |
| `ExecMemory.MapsReport` | enums.py:58-67 | A missing maps file prints the no-such-process line. Any other failure prints `Error: <message>`. Otherwise the maps filter runs. |
| `ExecMemory.VmmapReport` | enums.py:71-87 | A missing vmmap prints the install hint, and another failure prints `Error: <message>`. Exit code 0 runs the filter, and any other code prints the vmmap error with stripped stderr. |
| `ExecMemory.ShowExecutableMemory` | enums.py:53-87 | The banner comes first, then the output of the one branch the host selects. |
| `ExecMemory.MapsListsExactlyExecLines` | enums.py:58-63 | Given the lines of the maps table, the Linux branch prints exactly its `r-x` lines, stripped. The k-th printed line is the k-th `r-x` line, and their positions strictly ascend, so file order is kept. |
| `ExecMemory.VmmapNoneFoundIff` | enums.py:73-81 | With exit code 0, no matching line gives just the none-found message. Any matching line gives exactly the stripped matches, with no message. |
| `ExecMemory.NonZeroExitReportsOnlyError` | enums.py:82-83 | A non-zero exit code prints no region line, only the error carrying stripped stderr. |
| `ExecMemory.MissingToolReportsNoRegions` | enums.py:84-85 | A missing vmmap binary prints the install hint and no region data. |
| `ExecMemory.CoarseMapsPolicy` | enums.py:62 | A read-only mapping whose path mentions `r-x` is listed, and so is an `rwxp` mapping with such a path. The bare `rwxp` and `--xp` permission tokens are not. |
| `MemoryRead.StreamOutput` | enums.py:98-110 | Reading from the opened file prints one line exactly when the seek or read fails. |
| `MemoryRead.LinuxReadOutput` | enums.py:92-114 | The banner comes first. Exactly one line follows when opening, seeking or reading fails, and it is the no-such-process line or an `ErrorLine`. At least two lines follow otherwise. |
| `MemoryRead.ReadOutput` | enums.py:122-130 | Darwin prints the restriction notice, Linux prints what the Linux reader prints, and any other system prints only the unsupported message. |
| `MemoryRead.ReadStream` | enums.py:98-110 | Seeking and reading print the no-such-process line or `Error: <message>` on failure. Otherwise they print the heading, the hex rows of the bytes returned for the request (`start`, `end - start`), and an empty line. |
| `MemoryRead.ReadMemoryLinux` | enums.py:92-114 | The banner comes first. A missing file prints the no-such-process line and another failure prints `Error: <message>`. Otherwise the stream is read as above. |
| `MemoryRead.ReadMemory` | enums.py:122-130 | The dispatch prints exactly what `ReadOutput` describes for the system name. |
| `MemoryRead.DarwinReadsNothing` | enums.py:117-125 | On Darwin the output does not depend on the memory file at all. |
| `MemoryRead.ReadPrintsRequestedBytes` | enums.py:100-110 | A successful read prints 3 + ceil(n/16) lines for n returned bytes, and its rows decode back to exactly those bytes. |
| `MemoryRead.ReadRowsBound` | enums.py:103-109 | A read returns at most the `end - start` bytes requested, so the dump has at most ceil((end-start)/16) rows. A complete read gives exactly that many. |
| `MemoryRead.EmptyRangePrintsNoRows` | enums.py:103-110 | An empty range requests zero bytes, so a successful read prints only the banner, the heading and the empty line. |

## Left out

- `enumerate_processes`, `list_threads` and `list_modules` (enums.py:10-48) are left out. They are thin wrappers over psutil, and its iteration and error behaviour is not part of this model.
- `main` and its argument parsing (enums.py:136-176), including the `int(x, 0)` address parsing, are left out. The model's operations take the parsed pid and addresses.
- Opening files, seeking, reading and launching `vmmap` are left out. Their results are inputs (`Io` values, a stream function). Beyond a read never returning more bytes than requested, short reads, permissions and kernel behaviour are not specified.
- An exception raised while iterating the maps file, after some lines were already printed, is not modelled. A failure is modelled only when opening the file.
- The meaning of a negative read size (`start > end`), which Python treats as "read to the end", is not modelled. The stream function receives the negative size unchanged.
- The line splitting done by iterating a text file (universal newlines) is not modelled. The maps file is given as the sequence of lines that iteration yields.
- The whitespace and line-boundary character sets of `strip()` and `splitlines()` are written out for the characters CPython lists. Unicode database updates beyond that list are not tracked.
- `PyText.UnlinesSplitLines`: the inverse of `splitlines()` is proved only for texts whose line boundaries are all `\n`. Texts with `\r\n` or the other boundaries are split by `SplitLines` as Python does, but no round trip is stated for them.
- The memory stream is constrained only for read counts of zero or more (at most that many bytes). What a negative count returns is left open, as noted above.
- Printing itself is left out. Output is returned as a sequence of lines.

=== FILE: execmemory.dfy ===
/**
 * `show_executable_memory`: the listing of a process's executable memory
 * regions, from the kernel's maps table on Linux and from the vmmap report on
 * macOS.  Each printed line is collected, in order, in the returned sequence.
 */
module ExecMemory {
  import opened Outcomes
  import opened PyText
  import opened LineFilter
  import opened Platform

  /** A maps line of interest: the pattern `r-x` occurs at some offset of its text. */
  function IsMapsExecLine(line: string): (b: bool)
    ensures b <==> exists i :: OccursAt(line, "r-x", i)
  {
    ContainsAt(line, "r-x");
    Contains(line, "r-x")
  }

  /** A vmmap line of interest: `EXEC` or `__TEXT` occurs at some offset of its text. */
  function IsVmmapExecLine(line: string): (b: bool)
    ensures b <==> (exists i :: OccursAt(line, "EXEC", i)) || (exists i :: OccursAt(line, "__TEXT", i))
  {
    ContainsAt(line, "EXEC");
    ContainsAt(line, "__TEXT");
    Contains(line, "EXEC") || Contains(line, "__TEXT")
  }

  /** What `subprocess.run(["vmmap", str(pid)], ...)` hands back when it runs. */
  datatype ToolRun = ToolRun(returncode: int, stdout: string, stderr: string)

  function Banner(pid: int): string
  {
    "Showing executable memory pages for process " + IntStr(pid) + "..."
  }

  function MapsMissing(pid: int): string
  {
    "No such process with PID " + IntStr(pid) + " or insufficient permissions."
  }

  function NoRegions(pid: int): string
  {
    "No executable memory regions found for process " + IntStr(pid) + "."
  }

  function VmmapFailed(pid: int, stderr: string): string
  {
    "Error running vmmap for process " + IntStr(pid) + ": " + Strip(stderr)
  }

  const VmmapMissing: string := "vmmap command not found. Please install Xcode command line tools."

  /**
   * Whether some line passes the vmmap marker test: the final value of `found_executable`,
   * raised exactly when the loop has printed at least one line.
   */
  function AnyVmmapExecLine(lines: seq<string>): (b: bool)
    ensures b <==> Selected(lines, IsVmmapExecLine) != []
  {
    NoneSelected(lines, IsVmmapExecLine);
    exists i :: 0 <= i < |lines| && IsVmmapExecLine(lines[i])
  }

  /**
   * Everything the vmmap report contributes once the tool has run with exit code 0: at
   * least one line, and at most one per line of the report plus the none-found message.
   */
  function VmmapListing(pid: int, stdout: string): (out: seq<string>)
    ensures 1 <= |out| <= |SplitLines(stdout)| + 1
  {
    var lines := SplitLines(stdout);
    NoneSelected(lines, IsVmmapExecLine);
    Selected(lines, IsVmmapExecLine) + (if AnyVmmapExecLine(lines) then [] else [NoRegions(pid)])
  }

  /**
   * Output of the Linux branch, after the banner: one message when the maps table cannot
   * be opened, otherwise at most one line per line of the table.
   */
  function MapsOutput(pid: int, maps: Io<seq<string>>): (out: seq<string>)
    ensures !maps.Done? ==> |out| == 1
    ensures maps.Done? ==> |out| <= |maps.value|
  {
    match maps
    case NotFound => [MapsMissing(pid)]
    case Raised(message) => [ErrorLine(message)]
    case Done(lines) => Selected(lines, IsMapsExecLine)
  }

  /**
   * Output of the macOS branch, after the banner: never empty, and a single line unless
   * vmmap ran with exit code 0.
   */
  function VmmapOutput(pid: int, run: Io<ToolRun>): (out: seq<string>)
    ensures |out| >= 1
    ensures !(run.Done? && run.value.returncode == 0) ==> |out| == 1
  {
    match run
    case NotFound => [VmmapMissing]
    case Raised(message) => [ErrorLine(message)]
    case Done(r) =>
      if r.returncode == 0 then VmmapListing(pid, r.stdout) else [VmmapFailed(pid, r.stderr)]
  }

  /**
   * Output of the whole listing: the banner first; on a `darwin` platform something always
   * follows it, and on a host neither branch accepts nothing does.
   */
  function ExecReport(pid: int, host: Host, maps: Io<seq<string>>, run: Io<ToolRun>): (out: seq<string>)
    ensures |out| >= 1 && out[0] == Banner(pid)
    ensures ExecStrategyOf(host) == Vmmap ==> |out| >= 2
    ensures ExecStrategyOf(host) == NoExecStrategy ==> |out| == 1
  {
    [Banner(pid)] +
    match ExecStrategyOf(host)
    case ProcMaps => MapsOutput(pid, maps)
    case Vmmap => VmmapOutput(pid, run)
    case NoExecStrategy => []
  }

  /** The loop over the lines of `/proc/<pid>/maps`: print each `r-x` line, stripped. */
  method FilterMaps(lines: seq<string>) returns (out: seq<string>)
    ensures out == Selected(lines, IsMapsExecLine)
  {
    out := [];
    for i := 0 to |lines|
      invariant out == Selected(lines[..i], IsMapsExecLine)
    {
      SelectedStep(lines, i, IsMapsExecLine);
      if IsMapsExecLine(lines[i]) {
        out := out + [Strip(lines[i])];
      }
    }
    assert lines[..|lines|] == lines;
  }

  /**
   * The loop over the lines of the vmmap report: print each `EXEC` or `__TEXT` line,
   * stripped, and raise `found_executable`; afterwards print the none-found message
   * exactly when no line passed.
   */
  method FilterVmmap(pid: int, stdout: string) returns (out: seq<string>)
    ensures out == Selected(SplitLines(stdout), IsVmmapExecLine)
                   + (if AnyVmmapExecLine(SplitLines(stdout)) then [] else [NoRegions(pid)])
  {
    var lines := SplitLines(stdout);
    var found := false;
    out := [];
    for i := 0 to |lines|
      invariant out == Selected(lines[..i], IsVmmapExecLine)
      invariant found <==> out != []
    {
      SelectedStep(lines, i, IsVmmapExecLine);
      if IsVmmapExecLine(lines[i]) {
        out := out + [Strip(lines[i])];
        found := true;
      }
    }
    assert lines[..|lines|] == lines;
    if !found {
      out := out + [NoRegions(pid)];
    }
  }

  /** The Linux branch: open the maps table, then filter it. */
  method MapsReport(pid: int, maps: Io<seq<string>>) returns (out: seq<string>)
    ensures out == MapsOutput(pid, maps)
  {
    match maps
    case NotFound => out := [MapsMissing(pid)];
    case Raised(message) => out := [ErrorLine(message)];
    case Done(lines) => out := FilterMaps(lines);
  }

  /** The macOS branch: run vmmap, then filter its report or print its failure. */
  method VmmapReport(pid: int, run: Io<ToolRun>) returns (out: seq<string>)
    ensures out == VmmapOutput(pid, run)
  {
    match run
    case NotFound => out := [VmmapMissing];
    case Raised(message) => out := [ErrorLine(message)];
    case Done(r) =>
      if r.returncode == 0 {
        out := FilterVmmap(pid, r.stdout);
      } else {
        out := [VmmapFailed(pid, r.stderr)];
      }
  }

  /** `show_executable_memory(pid)`: the banner, then the branch the host selects. */
  method ShowExecutableMemory(pid: int, host: Host, maps: Io<seq<string>>, run: Io<ToolRun>)
    returns (out: seq<string>)
    ensures out == ExecReport(pid, host, maps, run)
  {
    var rest: seq<string>;
    match ExecStrategyOf(host) {
      case ProcMaps => rest := MapsReport(pid, maps);
      case Vmmap => rest := VmmapReport(pid, run);
      case NoExecStrategy => rest := [];
    }
    out := [Banner(pid)] + rest;
  }

  // ---------------------------------------------------------------- properties

  /**
   * Given the lines of the maps table, the Linux branch prints exactly its `r-x` lines,
   * stripped, in file order: the k-th printed region is the k-th such line.
   */
  lemma MapsListsExactlyExecLines(pid: int, lines: seq<string>)
    ensures var out := MapsOutput(pid, Done(lines));
            var idx := Matches(lines, IsMapsExecLine);
            && |out| == |idx|
            && (forall k :: 0 <= k < |idx| ==> out[k] == Strip(lines[idx[k]]))
            && (forall k, l :: 0 <= k < l < |idx| ==> idx[k] < idx[l])
            && (forall i :: 0 <= i < |lines| ==> (i in idx <==> IsMapsExecLine(lines[i])))
  {
    assert MapsOutput(pid, Done(lines)) == Selected(lines, IsMapsExecLine);
    SelectedAtMatches(lines, IsMapsExecLine);
    MatchesAscend(lines, IsMapsExecLine);
    MatchesExactly(lines, IsMapsExecLine);
  }

  /**
   * With exit code 0 the vmmap branch prints the `EXEC` / `__TEXT` lines, stripped, in
   * order, and appends the none-found message if and only if no line matched.
   */
  lemma {:induction false} VmmapNoneFoundIff(pid: int, stdout: string, stderr: string)
    ensures var out := VmmapOutput(pid, Done(ToolRun(0, stdout, stderr)));
            var lines := SplitLines(stdout);
            && ((forall i :: 0 <= i < |lines| ==> !IsVmmapExecLine(lines[i])) ==> out == [NoRegions(pid)])
            && (AnyVmmapExecLine(lines) ==> out == Selected(lines, IsVmmapExecLine) && out != [])
  {
    var lines := SplitLines(stdout);
    NoneSelected(lines, IsVmmapExecLine);
  }

  /** A line passes the maps test as soon as `r-x` appears in it, wherever that is. */
  lemma ExecPatternWithin(before: string, after: string)
    ensures IsMapsExecLine(before + "r-x" + after)
  {
    var line := before + "r-x" + after;
    assert line[|before|..|before| + 3] == "r-x";
    assert OccursAt(line, "r-x", |before|);
  }

  /** A four-character permission token without `r-x` at either offset fails the maps test. */
  lemma TokenLacksPattern(tok: string)
    requires |tok| == 4
    requires tok[0] != 'r' || tok[1] != '-' || tok[2] != 'x'
    requires tok[1] != 'r' || tok[2] != '-' || tok[3] != 'x'
    ensures !IsMapsExecLine(tok)
  {
    var rest := tok[1..];
    assert !("r-x" <= tok) by {
      assert tok[..3][0] == tok[0] && tok[..3][1] == tok[1] && tok[..3][2] == tok[2];
    }
    assert !("r-x" <= rest) by {
      assert rest[..3][0] == tok[1] && rest[..3][1] == tok[2] && rest[..3][2] == tok[3];
    }
    assert !Contains(rest[1..], "r-x");
  }

  /** A read-only mapping whose path mentions `r-x` passes the maps test. */
  lemma ReadOnlyPathListed()
    ensures IsMapsExecLine("r--p /opt/r-x/lib.so")
  {
    ExecPatternWithin("r--p /opt/", "/lib.so");
    assert "r--p /opt/" + "r-x" + "/lib.so" == "r--p /opt/r-x/lib.so";
  }

  /** A write-and-execute mapping whose path mentions `r-x` passes the maps test. */
  lemma WritableExecPathListed()
    ensures IsMapsExecLine("7f00-7f10 rwxp 00000000 00:00 0 /opt/r-x/lib.so")
  {
    ExecPatternWithin("7f00-7f10 rwxp 00000000 00:00 0 /opt/", "/lib.so");
    assert "7f00-7f10 rwxp 00000000 00:00 0 /opt/" + "r-x" + "/lib.so"
        == "7f00-7f10 rwxp 00000000 00:00 0 /opt/r-x/lib.so";
  }

  /**
   * The maps test looks for the pattern anywhere in the line: a read-only mapping whose
   * path mentions `r-x` passes, and so does a write-and-execute (`rwxp`) mapping with
   * such a path, while the bare `rwxp` and execute-only `--xp` permission tokens do not.
   */
  lemma CoarseMapsPolicy()
    ensures IsMapsExecLine("r--p /opt/r-x/lib.so")
    ensures IsMapsExecLine("7f00-7f10 rwxp 00000000 00:00 0 /opt/r-x/lib.so")
    ensures !IsMapsExecLine("rwxp")
    ensures !IsMapsExecLine("--xp")
  {
    ReadOnlyPathListed();
    WritableExecPathListed();
    TokenLacksPattern("rwxp");
    TokenLacksPattern("--xp");
  }

  /** A non-zero exit code prints no region line, only the error carrying stripped stderr. */
  lemma NonZeroExitReportsOnlyError(pid: int, r: ToolRun)
    requires r.returncode != 0
    ensures VmmapOutput(pid, Done(r)) == [VmmapFailed(pid, r.stderr)]
  {
  }

  /** A missing vmmap binary yields the install hint and no region data. */
  lemma MissingToolReportsNoRegions(pid: int)
    ensures VmmapOutput(pid, NotFound) == [VmmapMissing]
  {
  }
}

=== FILE: hexdump.dfy ===
/**
 * The hexadecimal rendering of the Linux memory reader: the bytes read are
 * cut into consecutive slices of 16 and each slice is printed as its bytes in
 * two-digit lower-case hex, separated by single spaces.
 */
module HexDump {
  import opened Outcomes
  import opened PyText

  /** A byte of process memory, as Python's `bytes` yields it when iterated. */
  newtype byte = b: int | 0 <= b < 256

  /** Bytes per printed row: the step of the row loop and the width of each slice. */
  const RowWidth: nat := 16

  function Min(a: int, b: int): int
  {
    if a <= b then a else b
  }

  // ---------------------------------------------------------------- one byte

  /** `f"{byte:02x}"`: two lower-case hex digits, the high nibble first. */
  function ByteHex(b: byte): (s: string)
    ensures |s| == 2 && IsLowerHexDigit(s[0]) && IsLowerHexDigit(s[1])
    ensures HexValue(s[0]) * 16 + HexValue(s[1]) == b as int
  {
    [DigitChar(b as int / 16), DigitChar(b as int % 16)]
  }

  /** Reads one token of a printed row back: exactly two lower-case hex digits. */
  function ParseByte(tok: string): Option<byte>
  {
    if |tok| == 2 && IsLowerHexDigit(tok[0]) && IsLowerHexDigit(tok[1])
    then Some((HexValue(tok[0]) * 16 + HexValue(tok[1])) as byte)
    else None
  }

  lemma ByteHexRoundTrip(b: byte)
    ensures ParseByte(ByteHex(b)) == Some(b)
  {
  }

  // ----------------------------------------------------------------- one row

  /** The tokens of a row: `f"{byte:02x}" for byte in row`. */
  function Hexes(row: seq<byte>): (toks: seq<string>)
    ensures |toks| == |row|
    ensures forall k :: 0 <= k < |row| ==> toks[k] == ByteHex(row[k])
  {
    if row == [] then [] else [ByteHex(row[0])] + Hexes(row[1..])
  }

  /** Every token of a row is two hex digits, so it holds no space. */
  lemma HexTokens(row: seq<byte>)
    ensures forall k :: 0 <= k < |Hexes(row)| ==> |Hexes(row)[k]| == 2 && ' ' !in Hexes(row)[k]
  {
    var toks := Hexes(row);
    forall k | 0 <= k < |toks| ensures |toks[k]| == 2 && ' ' !in toks[k] {
      assert IsLowerHexDigit(toks[k][0]) && IsLowerHexDigit(toks[k][1]);
    }
  }

  /**
   * One printed row: `" ".join(f"{byte:02x}" for byte in row)`.  A row of k >= 1 bytes
   * prints as 3k - 1 characters: k two-digit tokens and k - 1 separating spaces.
   */
  function RenderRow(row: seq<byte>): (line: string)
    ensures row == [] ==> line == []
    ensures row != [] ==> |line| == 3 * |row| - 1
  {
    if row == [] then []
    else
      HexTokens(row);
      PairsLayout(Hexes(row));
      JoinSpace(Hexes(row))
  }

  /** Parses the tokens of a row one by one; `None` as soon as one is not a two-digit hex byte. */
  function ParseTokens(toks: seq<string>): Option<seq<byte>>
  {
    if toks == [] then Some([])
    else
      match ParseByte(toks[0])
      case None => None
      case Some(b) =>
        match ParseTokens(toks[1..])
        case None => None
        case Some(bs) => Some([b] + bs)
  }

  /** Reads a printed row back: split it on single spaces and parse every token. */
  function ParseRow(line: string): Option<seq<byte>>
  {
    ParseTokens(Split(line, ' '))
  }

  /** Joining two-character, space-free tokens with single spaces puts a space at every third position. */
  lemma {:induction false} PairsLayout(parts: seq<string>)
    requires |parts| >= 1
    requires forall k :: 0 <= k < |parts| ==> |parts[k]| == 2 && ' ' !in parts[k]
    ensures |JoinSpace(parts)| == 3 * |parts| - 1
    ensures forall p :: 0 <= p < |JoinSpace(parts)| ==> (JoinSpace(parts)[p] == ' ' <==> p % 3 == 2)
    ensures forall k :: 0 <= k < |parts| ==> JoinSpace(parts)[3 * k .. 3 * k + 2] == parts[k]
  {
    var j := JoinSpace(parts);
    if |parts| == 1 {
      forall p | 0 <= p < |j| ensures j[p] == ' ' <==> p % 3 == 2 {
        assert j[p] in parts[0];
      }
    } else {
      var tail := JoinSpace(parts[1..]);
      PairsLayout(parts[1..]);
      assert j == parts[0] + " " + tail;
      forall p | 0 <= p < |j| ensures j[p] == ' ' <==> p % 3 == 2 {
        if p < 2 {
          assert j[p] == parts[0][p];
          assert j[p] in parts[0];
        } else if p >= 3 {
          assert j[p] == tail[p - 3];
        }
      }
      forall k | 0 <= k < |parts| ensures j[3 * k .. 3 * k + 2] == parts[k] {
        if k >= 1 {
          assert j[3 * k .. 3 * k + 2] == tail[3 * (k - 1) .. 3 * (k - 1) + 2];
        }
      }
    }
  }

  /**
   * In a printed row, position p holds a space exactly when p % 3 == 2, and byte i
   * occupies positions 3i and 3i + 1 as its two hex digits.
   */
  lemma RowLayout(row: seq<byte>)
    requires |row| >= 1
    ensures forall p :: 0 <= p < |RenderRow(row)| ==> (RenderRow(row)[p] == ' ' <==> p % 3 == 2)
    ensures forall k :: 0 <= k < |row| ==> RenderRow(row)[3 * k .. 3 * k + 2] == ByteHex(row[k])
  {
    HexTokens(row);
    PairsLayout(Hexes(row));
  }

  lemma {:induction false} ParseHexes(row: seq<byte>)
    ensures ParseTokens(Hexes(row)) == Some(row)
  {
    if row != [] {
      ByteHexRoundTrip(row[0]);
      assert Hexes(row)[1..] == Hexes(row[1..]);
      ParseHexes(row[1..]);
      assert [row[0]] + row[1..] == row;
    }
  }

  /** Splitting a printed row on spaces and parsing each token gives back the row's bytes. */
  lemma RowRoundTrip(row: seq<byte>)
    requires |row| >= 1
    ensures ParseRow(RenderRow(row)) == Some(row)
  {
    var toks := Hexes(row);
    HexTokens(row);
    SplitJoinSpace(toks);
    ParseHexes(row);
  }

  // ---------------------------------------------------------------- all rows

  /** The slices `memory[i:i+16]` for `i` in `range(0, len(memory), 16)`: each holds 1 to 16 bytes. */
  function Rows(m: seq<byte>): (rows: seq<seq<byte>>)
    ensures forall k :: 0 <= k < |rows| ==> 1 <= |rows[k]| <= RowWidth
    decreases |m|
  {
    if m == [] then []
    else if |m| <= RowWidth then [m]
    else [m[..RowWidth]] + Rows(m[RowWidth..])
  }

  /** The bytes of the rows, concatenated in order. */
  function Flatten(rows: seq<seq<byte>>): seq<byte>
  {
    if rows == [] then [] else rows[0] + Flatten(rows[1..])
  }

  /** An n-byte buffer gives ceil(n / 16) rows, so none for an empty buffer. */
  lemma {:induction false} RowCount(m: seq<byte>)
    ensures |Rows(m)| == (|m| + RowWidth - 1) / RowWidth
    decreases |m|
  {
    if |m| > RowWidth {
      RowCount(m[RowWidth..]);
    }
  }

  /** Every row but the last holds exactly 16 bytes. */
  lemma {:induction false} RowSizes(m: seq<byte>)
    ensures forall k :: 0 <= k < |Rows(m)| - 1 ==> |Rows(m)[k]| == RowWidth
    decreases |m|
  {
    if |m| > RowWidth {
      RowSizes(m[RowWidth..]);
      assert Rows(m)[1..] == Rows(m[RowWidth..]);
    }
  }

  /** Concatenating the rows in order gives back the buffer. */
  lemma {:induction false} RowsFlatten(m: seq<byte>)
    ensures Flatten(Rows(m)) == m
    decreases |m|
  {
    if |m| > RowWidth {
      RowsFlatten(m[RowWidth..]);
      assert Rows(m)[1..] == Rows(m[RowWidth..]);
      assert m[..RowWidth] + m[RowWidth..] == m;
    } else if m != [] {
      assert Rows(m)[1..] == [];
    }
  }

  /** Row k is the slice `m[16k : 16k + 16]`, clamped to the buffer as Python slicing is. */
  lemma {:induction false} RowAt(m: seq<byte>, k: nat)
    requires k < |Rows(m)|
    ensures RowWidth * k < |m|
    ensures Rows(m)[k] == m[RowWidth * k .. Min(RowWidth * k + RowWidth, |m|)]
    decreases |m|
  {
    if k > 0 {
      var rest := m[RowWidth..];
      assert Rows(m)[k] == Rows(rest)[k - 1];
      RowAt(rest, k - 1);
      assert rest[RowWidth * (k - 1) .. Min(RowWidth * (k - 1) + RowWidth, |rest|)]
          == m[RowWidth * k .. Min(RowWidth * k + RowWidth, |m|)];
    }
  }

  /** The printed lines of a sequence of rows. */
  function RenderRows(rows: seq<seq<byte>>): (lines: seq<string>)
    ensures |lines| == |rows|
    ensures forall k :: 0 <= k < |rows| ==> lines[k] == RenderRow(rows[k])
  {
    if rows == [] then [] else [RenderRow(rows[0])] + RenderRows(rows[1..])
  }

  /**
   * What the row loop prints for the bytes `m`: one line per started 16 bytes, that is
   * the least number of 16-byte lines that hold all of `m`.
   */
  function DumpLines(m: seq<byte>): (lines: seq<string>)
    ensures |m| <= RowWidth * |lines| < |m| + RowWidth
  {
    RowCount(m);
    RenderRows(Rows(m))
  }

  /** Reads a whole dump back, row after row. */
  function DecodeDump(lines: seq<string>): Option<seq<byte>>
  {
    if lines == [] then Some([])
    else
      match ParseRow(lines[0])
      case None => None
      case Some(row) =>
        match DecodeDump(lines[1..])
        case None => None
        case Some(rest) => Some(row + rest)
  }

  /** Decoding the printed dump gives back exactly the bytes that were read. */
  lemma {:induction false} DumpRoundTrip(m: seq<byte>)
    ensures DecodeDump(DumpLines(m)) == Some(m)
    decreases |m|
  {
    if m == [] {
    } else if |m| <= RowWidth {
      RowRoundTrip(m);
      assert DumpLines(m)[1..] == [];
      assert m + [] == m;
    } else {
      var head, rest := m[..RowWidth], m[RowWidth..];
      RowRoundTrip(head);
      assert DumpLines(m)[1..] == DumpLines(rest);
      DumpRoundTrip(rest);
      assert head + rest == m;
    }
  }

  /** Row k exists exactly when its first byte, at offset 16k, lies inside the buffer. */
  lemma RowIndex(m: seq<byte>, k: nat)
    ensures k < |Rows(m)| <==> RowWidth * k < |m|
  {
    RowCount(m);
  }

  /**
   * The loop `for i in range(0, len(memory), 16)` printing one rendered slice per
   * step, with the printed lines collected instead of written out.
   */
  method HexDumpLines(memory: seq<byte>) returns (lines: seq<string>)
    ensures lines == DumpLines(memory)
  {
    lines := [];
    var i := 0;
    while i < |memory|
      invariant i == RowWidth * |lines|
      invariant |lines| <= |Rows(memory)|
      invariant forall k :: 0 <= k < |lines| ==> lines[k] == RenderRow(Rows(memory)[k])
    {
      RowIndex(memory, |lines|);
      RowAt(memory, |lines|);
      lines := lines + [RenderRow(memory[i .. Min(i + RowWidth, |memory|)])];
      i := i + RowWidth;
    }
    RowIndex(memory, |lines|);
  }
}

=== FILE: linefilter.dfy ===
/**
 * The shape shared by both executable-region listings: walk the lines in
 * order and print, stripped, each line a marker test accepts.
 */
module LineFilter {
  import opened PyText

  /** The lines `keep` accepts, each stripped, in input order: what a filter loop prints. */
  function Selected(lines: seq<string>, keep: string -> bool): (out: seq<string>)
    ensures |out| <= |lines|
  {
    if lines == [] then []
    else
      var init := Selected(lines[..|lines| - 1], keep);
      var last := lines[|lines| - 1];
      if keep(last) then init + [Strip(last)] else init
  }

  /** The positions of the accepted lines, in ascending order. */
  function Matches(lines: seq<string>, keep: string -> bool): (idx: seq<nat>)
    ensures forall k :: 0 <= k < |idx| ==> idx[k] < |lines|
  {
    if lines == [] then []
    else
      var init := Matches(lines[..|lines| - 1], keep);
      if keep(lines[|lines| - 1]) then init + [|lines| - 1] else init
  }

  /** One more line extends the selection by that line, stripped, exactly when it is accepted. */
  lemma SelectedStep(lines: seq<string>, i: nat, keep: string -> bool)
    requires i < |lines|
    ensures Selected(lines[..i + 1], keep)
         == Selected(lines[..i], keep) + (if keep(lines[i]) then [Strip(lines[i])] else [])
  {
    assert lines[..i + 1][..i] == lines[..i];
  }

  /** The k-th selected line is the stripped line at the k-th accepted position. */
  lemma {:induction false} SelectedAtMatches(lines: seq<string>, keep: string -> bool)
    ensures |Selected(lines, keep)| == |Matches(lines, keep)|
    ensures forall k :: 0 <= k < |Matches(lines, keep)| ==>
              Selected(lines, keep)[k] == Strip(lines[Matches(lines, keep)[k]])
  {
    if lines != [] {
      var n := |lines|;
      var init := lines[..n - 1];
      SelectedAtMatches(init, keep);
      var s0, m0 := Selected(init, keep), Matches(init, keep);
      var s, m := Selected(lines, keep), Matches(lines, keep);
      var extra := keep(lines[n - 1]);
      assert s == if extra then s0 + [Strip(lines[n - 1])] else s0;
      assert m == if extra then m0 + [n - 1] else m0;
      forall k | 0 <= k < |m| ensures s[k] == Strip(lines[m[k]]) {
        if k < |m0| {
          assert s[k] == s0[k] && m[k] == m0[k];
          assert init[m0[k]] == lines[m0[k]];
        }
      }
    }
  }

  /** The accepted positions ascend strictly. */
  lemma {:induction false} MatchesAscend(lines: seq<string>, keep: string -> bool)
    ensures forall k, l :: 0 <= k < l < |Matches(lines, keep)| ==>
              Matches(lines, keep)[k] < Matches(lines, keep)[l]
  {
    if lines != [] {
      var n := |lines|;
      var init := lines[..n - 1];
      MatchesAscend(init, keep);
      var m0, m := Matches(init, keep), Matches(lines, keep);
      assert m == if keep(lines[n - 1]) then m0 + [n - 1] else m0;
      forall k, l | 0 <= k < l < |m| ensures m[k] < m[l] {
        if l < |m0| {
          assert m[k] == m0[k] && m[l] == m0[l];
        } else {
          assert m[k] == m0[k];
        }
      }
    }
  }

  /** A position is listed if and only if its line is accepted. */
  lemma {:induction false} MatchesExactly(lines: seq<string>, keep: string -> bool)
    ensures forall i :: 0 <= i < |lines| ==> (i in Matches(lines, keep) <==> keep(lines[i]))
  {
    if lines != [] {
      var n := |lines|;
      var init := lines[..n - 1];
      MatchesExactly(init, keep);
      var m0, m := Matches(init, keep), Matches(lines, keep);
      assert m == if keep(lines[n - 1]) then m0 + [n - 1] else m0;
      forall i | 0 <= i < n ensures i in m <==> keep(lines[i]) {
        if i < n - 1 {
          assert init[i] == lines[i];
          assert i in m <==> i in m0;
        } else {
          assert n - 1 !in m0;
        }
      }
    }
  }

  /**
   * The selection is exactly the accepted lines, stripped, in their original order:
   * the k-th output is the stripped line at the k-th accepted position, the positions
   * ascend, and a position is listed if and only if its line is accepted.
   */
  lemma SelectedExactly(lines: seq<string>, keep: string -> bool)
    ensures |Selected(lines, keep)| == |Matches(lines, keep)|
    ensures forall k :: 0 <= k < |Matches(lines, keep)| ==>
              Selected(lines, keep)[k] == Strip(lines[Matches(lines, keep)[k]])
    ensures forall k, l :: 0 <= k < l < |Matches(lines, keep)| ==>
              Matches(lines, keep)[k] < Matches(lines, keep)[l]
    ensures forall i :: 0 <= i < |lines| ==> (i in Matches(lines, keep) <==> keep(lines[i]))
  {
    SelectedAtMatches(lines, keep);
    MatchesAscend(lines, keep);
    MatchesExactly(lines, keep);
  }

  /** Nothing is selected if and only if no line is accepted. */
  lemma NoneSelected(lines: seq<string>, keep: string -> bool)
    ensures Selected(lines, keep) == [] <==> forall i :: 0 <= i < |lines| ==> !keep(lines[i])
  {
    SelectedExactly(lines, keep);
    var idx := Matches(lines, keep);
    if idx != [] {
      assert idx[0] in idx;
    }
  }
}

=== FILE: memoryread.dfy ===
/**
 * `read_memory` and its two platform variants: on Linux the bytes of
 * `[start, end)` are read from `/proc/<pid>/mem` and printed as a hex dump;
 * on macOS a restriction notice is printed and nothing is read; any other
 * system gets an unsupported-system message.
 */
module MemoryRead {
  import opened Outcomes
  import opened PyText
  import opened HexDump
  import opened Platform

  /**
   * The opened `/proc/<pid>/mem` stream, through the one thing the reader does with
   * it: seek to an offset, then read a count of bytes.  Either step may raise.  As
   * with `BufferedReader.read(n)`, a read of a count n >= 0 returns at most n bytes.
   */
  type MemStream = f: (int, int) -> Io<seq<byte>>
    | forall offset, n :: 0 <= n && f(offset, n).Done? ==> |f(offset, n).value| <= n
    witness (offset: int, n: int) => Io<seq<byte>>.NotFound

  function ReadingBanner(pid: int, start: int, end: int): string
  {
    "Reading memory for process " + IntStr(pid) + " from " + HexStr(start) + " to " + HexStr(end) + "..."
  }

  function MemoryHeading(start: int, end: int): string
  {
    "Memory from address " + HexStr(start) + " to " + HexStr(end) + ":"
  }

  function NoMemFile(pid: int): string
  {
    "Error: No such process or insufficient permissions for PID " + IntStr(pid) + "."
  }

  const RestrictedNotice: seq<string> := [
    "Direct memory access is restricted on macOS, especially without specific privileges.",
    "Please try this operation on a Linux machine."
  ]

  const UnsupportedMessage: string := "Unsupported operating system for memory reading."

  /** What the read of a successfully opened stream prints: one line when the read fails. */
  function StreamOutput(pid: int, start: int, end: int, stream: MemStream): (out: seq<string>)
    ensures |out| >= 1
    ensures |out| == 1 <==> !stream(start, end - start).Done?
  {
    match stream(start, end - start)
    case NotFound => [NoMemFile(pid)]
    case Raised(message) => [ErrorLine(message)]
    case Done(memory) => [MemoryHeading(start, end)] + DumpLines(memory) + [""]
  }

  /**
   * Everything `read_memory_linux` prints, given how opening the memory file turns out:
   * the banner first, then exactly one error line when opening, seeking or reading
   * fails, and at least the heading and the closing empty line otherwise.
   */
  function LinuxReadOutput(pid: int, start: int, end: int, mem: Io<MemStream>): (out: seq<string>)
    ensures |out| >= 2 && out[0] == ReadingBanner(pid, start, end)
    ensures |out| == 2 <==> !(mem.Done? && mem.value(start, end - start).Done?)
    ensures |out| == 2 ==> out[1] == NoMemFile(pid) || exists message :: out[1] == ErrorLine(message)
  {
    [ReadingBanner(pid, start, end)] +
    match mem
    case NotFound => [NoMemFile(pid)]
    case Raised(message) => [ErrorLine(message)]
    case Done(stream) => StreamOutput(pid, start, end, stream)
  }

  /**
   * Everything `read_memory` prints on a system named `system`: the fixed notice on
   * Darwin, the Linux reader's output on Linux, the unsupported message anywhere else.
   */
  function ReadOutput(pid: int, start: int, end: int, system: string, mem: Io<MemStream>): (out: seq<string>)
    ensures system == "Darwin" ==> out == RestrictedNotice
    ensures system == "Linux" ==> out == LinuxReadOutput(pid, start, end, mem)
    ensures system != "Darwin" && system != "Linux" ==> out == [UnsupportedMessage]
  {
    match ReadStrategyOf(system)
    case Restricted => RestrictedNotice
    case ProcMem => LinuxReadOutput(pid, start, end, mem)
    case UnsupportedRead => [UnsupportedMessage]
  }

  /**
   * The body of the `with` block of `read_memory_linux`: seek to `start`, read
   * `end - start` bytes and print them 16 to a row, followed by an empty line.
   */
  method ReadStream(pid: int, start: int, end: int, stream: MemStream) returns (out: seq<string>)
    ensures out == StreamOutput(pid, start, end, stream)
  {
    var read := stream(start, end - start);
    match read {
      case NotFound => out := [NoMemFile(pid)];
      case Raised(message) => out := [ErrorLine(message)];
      case Done(memory) =>
        var rows := HexDumpLines(memory);
        out := [MemoryHeading(start, end)] + rows + [""];
    }
  }

  /** `read_memory_linux`: print the banner, open the memory file and read from it. */
  method ReadMemoryLinux(pid: int, start: int, end: int, mem: Io<MemStream>) returns (out: seq<string>)
    ensures out == LinuxReadOutput(pid, start, end, mem)
  {
    var rest: seq<string>;
    match mem {
      case NotFound => rest := [NoMemFile(pid)];
      case Raised(message) => rest := [ErrorLine(message)];
      case Done(stream) => rest := ReadStream(pid, start, end, stream);
    }
    out := [ReadingBanner(pid, start, end)] + rest;
  }

  /** `read_memory`: dispatch on `platform.system()`. */
  method ReadMemory(pid: int, start: int, end: int, system: string, mem: Io<MemStream>)
    returns (out: seq<string>)
    ensures out == ReadOutput(pid, start, end, system, mem)
  {
    match ReadStrategyOf(system) {
      case Restricted => out := RestrictedNotice;
      case ProcMem => out := ReadMemoryLinux(pid, start, end, mem);
      case UnsupportedRead => out := [UnsupportedMessage];
    }
  }

  // ---------------------------------------------------------------- properties

  /** On Darwin nothing is read: the output is the same whatever the memory file would give. */
  lemma DarwinReadsNothing(pid: int, start: int, end: int, mem1: Io<MemStream>, mem2: Io<MemStream>)
    ensures ReadOutput(pid, start, end, "Darwin", mem1) == ReadOutput(pid, start, end, "Darwin", mem2)
  {
  }

  /**
   * A successful read prints the banner, the heading, one row per started 16 bytes of
   * what the stream returned for the request `(start, end - start)`, and an empty
   * line; the rows decode back to exactly those bytes.
   */
  lemma ReadPrintsRequestedBytes(pid: int, start: int, end: int, stream: MemStream)
    requires stream(start, end - start).Done?
    ensures var memory := stream(start, end - start).value;
            var out := LinuxReadOutput(pid, start, end, Done(stream));
            && |out| == 3 + (|memory| + RowWidth - 1) / RowWidth
            && out[..2] == [ReadingBanner(pid, start, end), MemoryHeading(start, end)]
            && out[|out| - 1] == ""
            && DecodeDump(out[2..|out| - 1]) == Some(memory)
  {
    var memory := stream(start, end - start).value;
    var rows := DumpLines(memory);
    assert StreamOutput(pid, start, end, stream) == [MemoryHeading(start, end)] + rows + [""];
    Framed(LinuxReadOutput(pid, start, end, Done(stream)), ReadingBanner(pid, start, end),
           MemoryHeading(start, end), rows, "");
    RowCount(memory);
    DumpRoundTrip(memory);
  }

  /** Two leading lines, a block of rows and a closing line, taken apart again. */
  lemma Framed(out: seq<string>, first: string, second: string, rows: seq<string>, last: string)
    requires out == [first] + ([second] + rows + [last])
    ensures |out| == |rows| + 3
    ensures out[..2] == [first, second] && out[|out| - 1] == last && out[2..|out| - 1] == rows
  {
  }

  /**
   * A read never returns more than was requested, so the dump has at most
   * ceil((end - start) / 16) rows, and exactly that many when the read was complete.
   */
  lemma ReadRowsBound(pid: int, start: int, end: int, stream: MemStream)
    requires start <= end
    requires stream(start, end - start).Done?
    ensures var memory := stream(start, end - start).value;
            && |DumpLines(memory)| <= (end - start + RowWidth - 1) / RowWidth
            && (|memory| == end - start ==> |DumpLines(memory)| == (end - start + RowWidth - 1) / RowWidth)
  {
    RowCount(stream(start, end - start).value);
  }

  /** An empty range asks for zero bytes, so a successful read prints no byte row. */
  lemma EmptyRangePrintsNoRows(pid: int, addr: int, stream: MemStream)
    requires stream(addr, 0).Done?
    ensures LinuxReadOutput(pid, addr, addr, Done(stream))
         == [ReadingBanner(pid, addr, addr), MemoryHeading(addr, addr), ""]
  {
  }
}

=== FILE: outcomes.dfy ===
/**
 * Outcomes of the steps the tool hands to the operating system.
 *
 * The tool never inspects a failure beyond its exception class: a
 * `FileNotFoundError` has a message of its own, every other exception is
 * printed as `Error: <message>`.  `Io` keeps exactly that distinction.
 */
module Outcomes {

  datatype Option<+T> = None | Some(value: T)

  /** What an open, a read or a subprocess launch gives back. */
  datatype Io<+T> =
    | NotFound                  // a FileNotFoundError was raised
    | Raised(message: string)   // any other exception, with its text
    | Done(value: T)            // the step succeeded

  /** How the tool prints an exception other than `FileNotFoundError`. */
  function ErrorLine(message: string): string
  {
    "Error: " + message
  }
}

=== FILE: platform.dfy ===
/**
 * Which code path the tool takes on the machine it runs on.  The two
 * operations probe different things: the executable-region listing looks at
 * `os.name` and `sys.platform`, the memory reader at `platform.system()`.
 */
module Platform {
  import opened PyText

  /** The interpreter's view of its host: `os.name`, `sys.platform` and `platform.system()`. */
  datatype Host = Host(osName: string, sysPlatform: string, system: string)

  /** The branch taken by the executable-region listing. */
  datatype ExecStrategy =
    | ProcMaps        // read /proc/<pid>/maps
    | Vmmap           // run the vmmap utility
    | NoExecStrategy  // neither branch: only the banner is printed

  /** The branch taken by the memory reader. */
  datatype ReadStrategy =
    | Restricted      // print the macOS restriction notice; nothing is read
    | ProcMem         // read /proc/<pid>/mem
    | UnsupportedRead // print the unsupported-system message

  function IsDarwinPlatform(h: Host): bool
  {
    StartsWith(h.sysPlatform, "darwin")
  }

  /**
   * The `if` / `elif` at the head of the executable-region listing: the vmmap branch for
   * every `darwin` platform whatever `os.name` says, the maps branch for every other
   * POSIX platform, and neither otherwise.
   */
  function ExecStrategyOf(h: Host): (e: ExecStrategy)
    ensures e == Vmmap <==> StartsWith(h.sysPlatform, "darwin")
    ensures e == ProcMaps <==> h.osName == "posix" && !StartsWith(h.sysPlatform, "darwin")
    ensures e == NoExecStrategy <==> h.osName != "posix" && !StartsWith(h.sysPlatform, "darwin")
  {
    if h.osName == "posix" && !IsDarwinPlatform(h) then ProcMaps
    else if IsDarwinPlatform(h) then Vmmap
    else NoExecStrategy
  }

  /**
   * The `if` / `elif` / `else` of the memory reader: exactly one branch per system name,
   * Darwin restricted, Linux read, every other name refused.
   */
  function ReadStrategyOf(system: string): (r: ReadStrategy)
    ensures r == Restricted <==> system == "Darwin"
    ensures r == ProcMem <==> system == "Linux"
    ensures r == UnsupportedRead <==> system != "Darwin" && system != "Linux"
  {
    if system == "Darwin" then Restricted
    else if system == "Linux" then ProcMem
    else UnsupportedRead
  }

  /** On the two hosts the tool targets, both operations agree on the platform. */
  lemma TargetHostsAgree()
    ensures ExecStrategyOf(Host("posix", "linux", "Linux")) == ProcMaps
    ensures ReadStrategyOf("Linux") == ProcMem
    ensures ExecStrategyOf(Host("posix", "darwin", "Darwin")) == Vmmap
    ensures ReadStrategyOf("Darwin") == Restricted
  {
    assert !StartsWith("linux", "darwin") by {
      assert "linux"[0] != "darwin"[0];
    }
  }

  /**
   * On a POSIX system that is neither Linux nor macOS the two probes disagree: the
   * listing reads /proc/<pid>/maps, while the reader refuses the system.
   */
  lemma OtherPosixHostsDiverge()
    ensures ExecStrategyOf(Host("posix", "freebsd14", "FreeBSD")) == ProcMaps
    ensures ReadStrategyOf("FreeBSD") == UnsupportedRead
  {
    assert !StartsWith("freebsd14", "darwin") by {
      assert "freebsd14"[0] != "darwin"[0];
    }
  }
}

=== FILE: pytext.dfy ===
/**
 * The Python `str` operations the tool relies on, over `seq<char>`:
 * `strip()`, the `in` substring test, `startswith`, `splitlines()`,
 * `" ".join(...)`, `split(" ")`, and the `str(int)` / `hex(int)` renderings
 * used inside its messages.
 */
module PyText {

  /** The characters `str.isspace()` accepts, which `str.strip()` removes. */
  predicate IsSpace(c: char)
  {
    || c == ' ' || c == '\t' || c == '\n' || c == '\r'
    || c == '\U{000B}' || c == '\U{000C}'
    || ('\U{001C}' <= c && c <= '\U{001F}')
    || c == '\U{0085}' || c == '\U{00A0}' || c == '\U{1680}'
    || ('\U{2000}' <= c && c <= '\U{200A}')
    || c == '\U{2028}' || c == '\U{2029}' || c == '\U{202F}'
    || c == '\U{205F}' || c == '\U{3000}'
  }

  /** Number of whitespace characters at the front of `s`. */
  function LeadingSpace(s: string): (n: nat)
    ensures n <= |s|
    ensures forall k :: 0 <= k < n ==> IsSpace(s[k])
    ensures n < |s| ==> !IsSpace(s[n])
  {
    if s == [] || !IsSpace(s[0]) then 0 else 1 + LeadingSpace(s[1..])
  }

  /** Number of whitespace characters at the back of `s`. */
  function TrailingSpace(s: string): (n: nat)
    ensures n <= |s|
    ensures forall k :: |s| - n <= k < |s| ==> IsSpace(s[k])
    ensures n < |s| ==> !IsSpace(s[|s| - 1 - n])
  {
    if s == [] || !IsSpace(s[|s| - 1]) then 0 else 1 + TrailingSpace(s[..|s| - 1])
  }

  /** `r` sits in `s` at offset `i` with only whitespace around it. */
  predicate StrippedAt(s: string, r: string, i: nat)
  {
    && i + |r| <= |s|
    && s[i..i + |r|] == r
    && (forall k :: 0 <= k < i ==> IsSpace(s[k]))
    && (forall k :: i + |r| <= k < |s| ==> IsSpace(s[k]))
  }

  /** Python's `s.strip()`: the longest infix of `s` that neither starts nor ends with whitespace. */
  function Strip(s: string): (r: string)
    ensures StrippedAt(s, r, LeadingSpace(s))
    ensures r == [] || (!IsSpace(r[0]) && !IsSpace(r[|r| - 1]))
  {
    var i := LeadingSpace(s);
    var t := s[i..];
    var j := TrailingSpace(t);
    assert j < |t| ==> !IsSpace(t[0]);
    t[..|t| - j]
  }

  /** Python's `pat in s` on strings: the empty pattern is in every string, and no longer one is. */
  function Contains(s: string, pat: string): (b: bool)
    ensures pat == [] ==> b
    ensures b ==> |pat| <= |s|
  {
    pat <= s || (s != [] && Contains(s[1..], pat))
  }

  /** `pat` occurs in `s` starting at offset `i`. */
  predicate OccursAt(s: string, pat: string, i: int)
  {
    0 <= i <= |s| - |pat| && s[i..i + |pat|] == pat
  }

  /** `Contains` agrees with the positional definition: `pat` occurs at some offset of `s`. */
  lemma {:induction false} ContainsAt(s: string, pat: string)
    ensures Contains(s, pat) <==> exists i :: OccursAt(s, pat, i)
    decreases |s|
  {
    if pat <= s {
      assert OccursAt(s, pat, 0);
    } else if s != [] {
      var t := s[1..];
      ContainsAt(t, pat);
      if exists i :: OccursAt(s, pat, i) {
        var i :| OccursAt(s, pat, i);
        assert i != 0;
        assert OccursAt(t, pat, i - 1);
      }
      if Contains(t, pat) {
        var j :| OccursAt(t, pat, j);
        assert OccursAt(s, pat, j + 1);
      }
    }
  }

  /** Python's `s.startswith(p)`: `p` occurs at offset 0, so in particular `p in s`. */
  function StartsWith(s: string, p: string): (b: bool)
    ensures b <==> OccursAt(s, p, 0)
    ensures b ==> Contains(s, p)
  {
    p <= s
  }

  /** The line boundaries of Python's `str.splitlines()`. */
  predicate IsLineBoundary(c: char)
  {
    || c == '\n' || c == '\r' || c == '\U{000B}' || c == '\U{000C}'
    || ('\U{001C}' <= c && c <= '\U{001E}')
    || c == '\U{0085}' || c == '\U{2028}' || c == '\U{2029}'
  }

  /** A string holding no line boundary. */
  predicate IsLine(s: string)
  {
    forall c :: c in s ==> !IsLineBoundary(c)
  }

  /** Length of the first line of `s`: the index of its first boundary, or `|s|`. */
  function LineLength(s: string): (n: nat)
    ensures n <= |s|
    ensures IsLine(s[..n])
    ensures n < |s| ==> IsLineBoundary(s[n])
  {
    if s == [] || IsLineBoundary(s[0]) then 0
    else
      var n := 1 + LineLength(s[1..]);
      assert s[..n] == [s[0]] + s[1..][..n - 1];
      n
  }

  /**
   * Python's `s.splitlines()`: the lines of `s` without their terminators; `\r\n`
   * counts as one terminator, and a terminator at the very end opens no further line.
   */
  function SplitLines(s: string): (lines: seq<string>)
    ensures |lines| <= |s|
    ensures forall k :: 0 <= k < |lines| ==> IsLine(lines[k])
    ensures s != [] ==> lines != []
    decreases |s|
  {
    if s == [] then []
    else
      var n := LineLength(s);
      if n == |s| then [s]
      else
        var skip := if s[n] == '\r' && n + 1 < |s| && s[n + 1] == '\n' then 2 else 1;
        [s[..n]] + SplitLines(s[n + skip..])
  }

  /** Every line followed by `\n`: the text that `splitlines` takes apart again. */
  function Unlines(lines: seq<string>): string
  {
    if lines == [] then [] else lines[0] + "\n" + Unlines(lines[1..])
  }

  lemma LineLengthOfLine(l: string, rest: string)
    requires IsLine(l)
    ensures LineLength(l + "\n" + rest) == |l|
    decreases |l|
  {
    if l != [] {
      assert (l + "\n" + rest)[1..] == l[1..] + "\n" + rest;
      LineLengthOfLine(l[1..], rest);
    }
  }

  /** `splitlines` undoes `Unlines` when no line holds a boundary character. */
  lemma {:induction false} SplitLinesUnlines(lines: seq<string>)
    requires forall k :: 0 <= k < |lines| ==> IsLine(lines[k])
    ensures SplitLines(Unlines(lines)) == lines
  {
    if lines != [] {
      var l, rest := lines[0], Unlines(lines[1..]);
      var s := l + "\n" + rest;
      assert Unlines(lines) == s;
      LineLengthOfLine(l, rest);
      assert s[|l|] == '\n';
      assert s[..|l|] == l;
      assert s[|l| + 1..] == rest;
      SplitLinesUnlines(lines[1..]);
    }
  }

  lemma UnlinesCons(line: string, rest: seq<string>)
    ensures Unlines([line] + rest) == line + "\n" + Unlines(rest)
  {
    assert ([line] + rest)[1..] == rest;
  }

  /** A text without a boundary is one unterminated line. */
  lemma LastLine(s: string)
    requires s != [] && LineLength(s) == |s|
    ensures s[|s| - 1] != '\n'
    ensures Unlines(SplitLines(s)) == s + "\n"
  {
    assert SplitLines(s) == [s];
    UnlinesCons(s, []);
    assert s[..|s|] == s;
    assert s[|s| - 1] in s[..|s|];
    assert IsLineBoundary('\n');
  }

  /** A first line ended by `\n` is split off, and splitting goes on after the `\n`. */
  lemma FirstLine(s: string)
    requires LineLength(s) < |s| && s[LineLength(s)] == '\n'
    ensures SplitLines(s) == [s[..LineLength(s)]] + SplitLines(s[LineLength(s) + 1..])
  {
  }

  /** Putting a first line ended by `\n` back in front of the rest of the text, as `Unlines` does. */
  lemma RejoinFirstLine(s: string, n: nat)
    requires n < |s| && s[n] == '\n'
    ensures var t := s[n + 1..];
            s[..n] + "\n" + (if t == [] || t[|t| - 1] == '\n' then t else t + "\n")
            == if s[|s| - 1] == '\n' then s else s + "\n"
  {
    var t := s[n + 1..];
    assert s == s[..n] + "\n" + t;
    if t != [] {
      assert t[|t| - 1] == s[|s| - 1];
    }
  }

  /**
   * `splitlines` is undone by `Unlines` on a text whose only line boundary is `\n`:
   * the text comes back unchanged, with a final `\n` added when its last line was
   * unterminated.
   */
  lemma {:induction false} UnlinesSplitLines(s: string)
    requires forall k :: 0 <= k < |s| && IsLineBoundary(s[k]) ==> s[k] == '\n'
    ensures Unlines(SplitLines(s)) == if s == [] || s[|s| - 1] == '\n' then s else s + "\n"
    decreases |s|
  {
    if s != [] {
      var n := LineLength(s);
      if n == |s| {
        LastLine(s);
      } else {
        var t := s[n + 1..];
        FirstLine(s);
        forall k | 0 <= k < |t| && IsLineBoundary(t[k]) ensures t[k] == '\n' {
          assert t[k] == s[n + 1 + k];
        }
        UnlinesSplitLines(t);
        UnlinesCons(s[..n], SplitLines(t));
        assert Unlines(SplitLines(s)) == s[..n] + "\n" + Unlines(SplitLines(t));
        RejoinFirstLine(s, n);
      }
    }
  }

  /**
   * Python's `" ".join(parts)`: it starts with the first part, and when there is a
   * second part a single space follows the first.
   */
  function JoinSpace(parts: seq<string>): (r: string)
    ensures |parts| >= 1 ==> parts[0] <= r
    ensures |parts| >= 2 ==> |parts[0]| < |r| && r[|parts[0]|] == ' '
  {
    if |parts| == 0 then []
    else if |parts| == 1 then parts[0]
    else parts[0] + " " + JoinSpace(parts[1..])
  }

  /** Python's `s.split(sep)` for a one-character separator. */
  function Split(s: string, sep: char): (parts: seq<string>)
    ensures |parts| >= 1
  {
    if s == [] then [[]]
    else
      var rest := Split(s[1..], sep);
      if s[0] == sep then [[]] + rest else [[s[0]] + rest[0]] + rest[1..]
  }

  lemma {:induction false} SplitNoSep(a: string, sep: char)
    requires sep !in a
    ensures Split(a, sep) == [a]
  {
    if a != [] {
      SplitNoSep(a[1..], sep);
      assert [a[0]] + a[1..] == a;
    }
  }

  lemma {:induction false} SplitAfterSep(a: string, b: string, sep: char)
    requires sep !in a
    ensures Split(a + [sep] + b, sep) == [a] + Split(b, sep)
  {
    if a == [] {
      assert a + [sep] + b == [sep] + b;
      assert ([sep] + b)[1..] == b;
    } else {
      var s := a + [sep] + b;
      assert s[1..] == a[1..] + [sep] + b;
      SplitAfterSep(a[1..], b, sep);
      assert [a[0]] + a[1..] == a;
    }
  }

  /** `split(" ")` undoes `" ".join` when there is a part and no part holds a space. */
  lemma {:induction false} SplitJoinSpace(parts: seq<string>)
    requires |parts| >= 1
    requires forall k :: 0 <= k < |parts| ==> ' ' !in parts[k]
    ensures Split(JoinSpace(parts), ' ') == parts
  {
    if |parts| == 1 {
      SplitNoSep(parts[0], ' ');
    } else {
      SplitAfterSep(parts[0], JoinSpace(parts[1..]), ' ');
      SplitJoinSpace(parts[1..]);
      assert [parts[0]] + parts[1..] == parts;
    }
  }

  /** The digit of value `d` in bases up to 16, lower case as Python writes it. */
  function DigitChar(d: nat): (c: char)
    requires d < 16
    ensures IsLowerHexDigit(c) && HexValue(c) == d
  {
    if d < 10 then ('0' as int + d) as char else ('a' as int + d - 10) as char
  }

  predicate IsLowerHexDigit(c: char)
  {
    ('0' <= c && c <= '9') || ('a' <= c && c <= 'f')
  }

  /** The value of a lower-case hexadecimal digit. */
  function HexValue(c: char): (v: nat)
    requires IsLowerHexDigit(c)
    ensures v < 16
  {
    if c <= '9' then c as int - '0' as int else c as int - 'a' as int + 10
  }

  /** The digits of `n` in `base`, most significant first, without leading zeros. */
  function Digits(n: nat, base: nat): (r: string)
    requires 2 <= base <= 16
    ensures |r| >= 1
    ensures forall k :: 0 <= k < |r| ==> IsLowerHexDigit(r[k])
    ensures r[0] == '0' <==> n == 0
    ensures n == 0 ==> r == "0"
    decreases n
  {
    if n < base then [DigitChar(n)]
    else
      DivDecreases(n, base);
      Digits(n / base, base) + [DigitChar(n % base)]
  }

  /** The number a digit string denotes in `base`. */
  function DigitsValue(s: string, base: nat): nat
    requires forall k :: 0 <= k < |s| ==> IsLowerHexDigit(s[k])
  {
    if s == [] then 0 else DigitsValue(s[..|s| - 1], base) * base + HexValue(s[|s| - 1])
  }

  lemma DivDecreases(n: nat, base: nat)
    requires 2 <= base <= n
    ensures 1 <= n / base < n && n == n / base * base + n % base
  {
  }

  /** `Digits` is read back by `DigitsValue`. */
  lemma {:induction false} DigitsRoundTrip(n: nat, base: nat)
    requires 2 <= base <= 16
    ensures DigitsValue(Digits(n, base), base) == n
    decreases n
  {
    if n >= base {
      var r := Digits(n, base);
      var q, d := n / base, n % base;
      assert r == Digits(q, base) + [DigitChar(d)];
      assert r[..|r| - 1] == Digits(q, base);
      DivDecreases(n, base);
      DigitsRoundTrip(q, base);
      assert DigitsValue(r, base) == q * base + d;
      assert q * base + d == n;
    }
  }

  /** The magnitude of `n`. */
  function Abs(n: int): nat
  {
    if n < 0 then -n else n
  }

  /** Python's `str(n)` for an `int`: a leading `-` exactly for negative numbers. */
  function IntStr(n: int): (r: string)
    ensures |r| >= 1 && (r[0] == '-' <==> n < 0)
  {
    if n < 0 then "-" + Digits(-n, 10) else Digits(n, 10)
  }

  /**
   * After the sign, `str(n)` is decimal digits without leading zeros that read back as
   * the magnitude of `n`.
   */
  lemma IntStrDigits(n: int)
    ensures var digits := if n < 0 then IntStr(n)[1..] else IntStr(n);
            && |digits| >= 1
            && (forall k :: 0 <= k < |digits| ==> IsLowerHexDigit(digits[k]))
            && (digits[0] == '0' <==> n == 0)
            && (n == 0 ==> digits == "0")
            && DigitsValue(digits, 10) == Abs(n)
  {
    DigitsRoundTrip(Abs(n), 10);
    if n < 0 {
      assert IntStr(n)[1..] == Digits(-n, 10);
    }
  }

  /** Python's `hex(n)`: `-0x` for negative numbers and `0x` otherwise. */
  function HexStr(n: int): (r: string)
    ensures |r| >= 3 && (r[0] == '-' <==> n < 0)
    ensures if n < 0 then r[..3] == "-0x" else r[..2] == "0x"
  {
    if n < 0 then "-0x" + Digits(-n, 16) else "0x" + Digits(n, 16)
  }

  /**
   * After the prefix, `hex(n)` is lower-case hexadecimal digits without leading zeros
   * that read back as the magnitude of `n`.
   */
  lemma HexStrDigits(n: int)
    ensures var digits := if n < 0 then HexStr(n)[3..] else HexStr(n)[2..];
            && |digits| >= 1
            && (forall k :: 0 <= k < |digits| ==> IsLowerHexDigit(digits[k]))
            && (digits[0] == '0' <==> n == 0)
            && (n == 0 ==> digits == "0")
            && DigitsValue(digits, 16) == Abs(n)
  {
    DigitsRoundTrip(Abs(n), 16);
    if n < 0 {
      assert HexStr(n)[3..] == Digits(-n, 16);
    } else {
      assert HexStr(n)[2..] == Digits(n, 16);
    }
  }
}
